=== FILE: README.md ===
# QuickSend wallet ledger in Dafny

This project models the wallet ledger of the QuickSend peer-to-peer wallet API.
The ledger state is a users table and an append-only list of wallet transaction entries.
Each account has an id, a phone number and an exact decimal balance.
Each entry has a fresh id, an owner, an amount and a kind (`Deposit`, `withdraw`, `send`, `recieved`).
Two endpoints of `WalletController` change that state:

- **SendMoney** checks the amount, then the caller, then looks up the recipient by phone number, then checks the sender's balance. It then debits the sender, credits the recipient, and appends a `send` and a `recieved` entry in one database transaction.
- **Deposit** checks the caller, then the amount, then acts on the payment processor's status. Only `succeeded` credits the account: it adds `AmountInCents / 100` and appends one `Deposit` entry.

Both are pure functions from a `Ledger` to a `Reply`, which holds the response kind and the ledger afterwards.
The database transaction is all-or-nothing.
A `commitOk` flag says whether the commit succeeded; when it is false, the ledger returned is the one passed in.
One commit applies all of an operation's postings together, or none of them. A posting is one balance change plus the entry that records it. A Deposit commits one posting. A SendMoney commits two: the sender's debit and the recipient's credit.

Modules:

- `Wrappers`: `Option`.
- `Models`: the entry and account records, the enumeration of entry kinds, the entries whose `UserId` is an account (`EntriesOf`) and the signed sum of entries (`Net`).
- `LedgerStore`: the ledger state, account creation, the posting `Post` (one balance change plus the entry recording it), the ledger invariant `Valid`, and the total of all balances.
- `WalletController`: the request bodies, the payment outcome, the lookups, `SendMoney` and `Deposit`, and the lemmas about them.
- `Scenarios`: concrete worked examples and the failed-commit property for both endpoints. The examples start from ledgers built by account creation and succeeded deposits, so the starting ledgers satisfy the ledger invariant.

Modelling decisions:

- Money is Dafny `real`. C# `decimal` is exact, so a recorded amount is exactly the amount moved.
- The caller is the request's user-id claim, `Option<AccountId>`. As `GetUserAsync` does, a caller resolves to a user only when that id is stored (`FindUser`).
- The recipient query is a first-or-default query by phone number. `SendMoney` takes its answer as a parameter. `PhoneLookup` constrains that answer: some account with that phone, or `None` when no account has it. Phone numbers are not unique. The lemmas about every outcome (`SendMoneyPreservesValid`, `SendMoneyConservesTotal`, `SendMoneyNeverWithdraws`, `FailedCommitChangesNothing`) hold for any valid answer, whichever matching account it names. `FirstOrDefaultByPhone` is a table scan that produces such an answer.
- Entry ids are random GUIDs in the code. Here they come from a counter in the ledger, and the invariant shows they are pairwise distinct.
- The ledger invariant `Valid` has three parts: every entry's owner exists, its amount is positive, and its id is fresh (below the counter and increasing along the log); no balance is negative; every balance equals the signed sum of the account's entries. `Deposit` and `recieved` count positive, `send` and `withdraw` negative. The empty ledger satisfies it, creating an account keeps it, and so does every `SendMoney` and `Deposit`.
- The code does not reject a transfer to oneself. When the sender and the recipient are one account, the debit and credit cancel, and both entries are still appended (`SendMoneyToSelf`).
- If the payment succeeds but the commit then fails, the account is not credited and the response is a server error, exactly as in the code. Nothing reconciles the charge later, and the code has no idempotency key for either endpoint.

## Model

| member | source | states |
|---|---|---|
| `Models.EntriesOfExact` | QuickSend/Models/WalletTransactions.cs:9 | The entries whose `UserId` is the account are exactly the log entries with that owner: every entry in the view is in the log with that `UserId`, and every such log entry is in the view. |
| `LedgerStore.NewUserBalanceMatchesEntries` | QuickSend/Models/ApplicationUser.cs:7-8 | In any ledger whose entries all belong to existing accounts, a newly created account has no entries whose `UserId` is its id. Its balance of 0 equals the signed sum of those entries. This is the base case of the ledger invariant. |
| `LedgerStore.AddUser` | QuickSend/Models/ApplicationUser.cs:5-8 | Creating an account adds exactly one key. The new account has the given phone number and balance 0. Every existing account, the entry log and the entry-id counter are unchanged. |
| `LedgerStore.AddUserPreservesValid` | QuickSend/Models/ApplicationUser.cs:7-8 | A new account has balance 0 and no entry whose `UserId` is the account, and the ledger invariant still holds after it is created. |
| `LedgerStore.Post` | QuickSend/Controllers/WalletController.cs:44-52 | One posting, one leg of a commit, moves the owner's balance by the entry's signed amount. It appends exactly that entry with the next fresh id and changes no other account. SendMoney's commit applies two postings (:61-73) and Deposit's applies one (:135-141). |
| `LedgerStore.PostPreservesValid` | QuickSend/Models/WalletTransactions.cs:5-9 | A posting of a positive entry whose debit is covered keeps entry ids fresh and distinct, owners existing, balances non-negative, and each balance equal to the signed sum of its entries. |
| `LedgerStore.PostTotal` | QuickSend/Controllers/WalletController.cs:44-45 | A posting changes the total of all balances by exactly the entry's signed amount. |
| `WalletController.FindUser` | QuickSend/Controllers/WalletController.cs:33-35 | The caller resolves to a user exactly when its id claim is present and names a stored account. |
| `WalletController.FirstOrDefaultByPhone` | QuickSend/Controllers/WalletController.cs:37 | The scan returns the first account, in row order, with the phone number. It returns none only when no account has that phone number. |
| `WalletController.SendMoney` | QuickSend/Controllers/WalletController.cs:28-83 | The checks run in the order amount, caller, recipient, balance, and the first failure decides the response. A failed commit after all checks pass answers with a server error. Every rejection and every failed commit leaves the ledger unchanged. The transfer happens exactly when all checks pass and the commit succeeds. Then the sender loses the amount, the recipient gains it, no other account changes, the sender's balance stays non-negative, and exactly a `send` and a `recieved` entry of that amount are appended. |
| `WalletController.SendMoneyPreservesValid` | QuickSend/Controllers/WalletController.cs:41-59 | Every SendMoney outcome keeps the ledger invariant: no negative balance, and every balance equals the signed sum of its entries. |
| `WalletController.SendMoneyConservesTotal` | QuickSend/Controllers/WalletController.cs:44-45 | The total of all balances is the same after SendMoney, whatever the outcome. |
| `WalletController.SendMoneyToSelf` | QuickSend/Controllers/WalletController.cs:37-45 | When the phone lookup resolves to the caller, a covered send succeeds and leaves that balance unchanged. Both the `send` and the `recieved` entry are added to the entries whose `UserId` is that account; their order there is the model's log order, which the source does not keep. |
| `WalletController.SendMoneyNeverWithdraws` | QuickSend/Models/WalletTransactions.cs:12-18 | SendMoney only appends to the log. The new entries are `send` or `recieved` entries of the transfer amount, never `withdraw`. |
| `WalletController.CentsToUnits` | QuickSend/Controllers/WalletController.cs:125 | The conversion from minor units is exact: the result times 100 is the original count of cents. It is positive exactly when the cents are. |
| `WalletController.Deposit` | QuickSend/Controllers/WalletController.cs:86-155 | The caller is checked before the amount. A gateway exception, either requires-action status or any other status produces its own response and leaves the ledger unchanged, and so does a failed commit. Only `succeeded` with a successful commit credits the caller by cents / 100, keeps the caller's phone number, leaves other accounts unchanged, advances the entry counter by one, appends exactly one `Deposit` entry of that amount, and reports the new balance. |
| `WalletController.DepositPreservesValid` | QuickSend/Controllers/WalletController.cs:123-149 | Every Deposit outcome keeps the ledger invariant. |
| `WalletController.DepositTotal` | QuickSend/Controllers/WalletController.cs:123-149 | The total of all balances grows by exactly the credited amount on a successful deposit, and is unchanged otherwise. |
| `WalletController.DepositIgnoresCurrency` | QuickSend/Controllers/WalletController.cs:100-126 | The account has one balance for all currencies. For the same amount, the same gateway outcome and the same commit result, the reply and the ledger do not depend on the currency or the payment method. |
| `Scenarios.TransferScenario` | QuickSend/Controllers/WalletController.cs:44-59 | A and B are created and funded with 100 and 50 by succeeded deposits; A sends 30 to B. A ends at 70, B at 80, with one `send` entry of 30 for A and one `recieved` entry of 30 for B, and the ledger stays valid. |
| `Scenarios.InsufficientBalanceScenario` | QuickSend/Controllers/WalletController.cs:41-42 | Sending 50 from a balance of 10 is rejected as insufficient and writes nothing. |
| `Scenarios.DepositScenario` | QuickSend/Controllers/WalletController.cs:123-149 | A newly created account's succeeded deposit of 500 cents credits 5 and records one `Deposit` entry of 5, and the ledger is valid. |
| `Scenarios.FailedCommitChangesNothing` | QuickSend/Controllers/WalletController.cs:61-147 | When the commit fails, neither SendMoney nor Deposit changes any balance or appends any entry. |

## Left out

- The payment processor call (`WalletController.cs:95-113`) is not modelled. Only its outcome is, as the input `PaymentOutcome`. The client secret and error message are carried through unchanged.
- HTTP status codes and response bodies are not modelled. Each response is a kind, plus the new balance or the client secret where the code returns one.
- The order of an account's entries is the model's log order. The source's collection and table carry no order.
- Database mechanics (change tracking, isolation levels, the in-memory mutation of tracked entities before the commit) are not modelled. They are abstracted as one atomic commit that succeeds or fails.
- Concurrency is not modelled. In particular, the balance check runs outside the database transaction, so two concurrent transfers could both pass it. The model is sequential.
- The withdraw endpoint and the payout helper are commented out in the code and are not modelled. The `withdraw` kind is declared and counted as a debit in the signed sum. No operation creates it.
- Registration, login and token issuing (`AuthController.cs`) and service wiring (`DependencyInjection.cs`) are not modelled. Account creation is modelled from the account record's defaults only (`AddUser`).
- C# `decimal` range and precision limits and the 64-bit range of `AmountInCents` are not modelled. Amounts are unbounded exact reals.
- A null phone number is not modelled. Phone numbers are plain strings.
- Entry ids are a counter, not random GUIDs. The model keeps only their freshness.
- Idempotent reconciliation of a charge whose commit failed does not exist in the code and is not modelled.

=== FILE: ledger.dfy ===
/** The ledger store: the users table (id to account), the append-only entry
    log, and the posting that applies one balance change together with the
    entry that records it. A commit applies one posting (a deposit) or two
    (a transfer), all or none. */
module LedgerStore {
  import opened Models

  datatype Ledger = Ledger(
    users: map<AccountId, ApplicationUser>,
    log: seq<WalletTransaction>,
    nextEntryId: EntryId)

  /** The store before any account exists. */
  function Empty(): Ledger
  {
    Ledger(map[], [], 0)
  }

  /** The entries whose `UserId` is the account. */
  function Transactions(l: Ledger, id: AccountId): seq<WalletTransaction>
  {
    EntriesOf(l.log, id)
  }

  /** Every entry belongs to an existing account, has a positive amount, and
      carries an identifier that is fresh: below the counter and strictly
      increasing along the log, hence pairwise distinct. */
  ghost predicate EntriesWellFormed(l: Ledger)
  {
    && (forall i :: 0 <= i < |l.log| ==> l.log[i].userId in l.users)
    && (forall i :: 0 <= i < |l.log| ==> l.log[i].amount > 0.0)
    && (forall i :: 0 <= i < |l.log| ==> l.log[i].id < l.nextEntryId)
    && (forall i, j :: 0 <= i < j < |l.log| ==> l.log[i].id < l.log[j].id)
  }

  ghost predicate BalancesNonNegative(l: Ledger)
  {
    forall id :: id in l.users ==> l.users[id].balance >= 0.0
  }

  /** Each balance is the signed sum of the account's own entries. */
  ghost predicate BalancesMatchEntries(l: Ledger)
  {
    forall id :: id in l.users ==> l.users[id].balance == Net(EntriesOf(l.log, id))
  }

  ghost predicate Valid(l: Ledger)
  {
    EntriesWellFormed(l) && BalancesNonNegative(l) && BalancesMatchEntries(l)
  }

  /** Creates an account with the constructor's defaults. The identity store
      assigns a fresh id, so `id` is not yet a key. */
  function AddUser(l: Ledger, id: AccountId, phone: PhoneNumber): (r: Ledger)
    requires id !in l.users
    ensures r.users.Keys == l.users.Keys + {id}
    ensures forall k :: k in l.users ==> r.users[k] == l.users[k]
    ensures r.users[id] == ApplicationUser(phone, 0.0)
    ensures r.log == l.log
    ensures r.nextEntryId == l.nextEntryId
  {
    l.(users := l.users[id := NewUser(phone)])
  }

  /** The entry a posting stamps for `owner`: it takes the next fresh id. */
  function NextEntry(l: Ledger, owner: AccountId, kind: TransactionType, amount: real): WalletTransaction
  {
    WalletTransaction(l.nextEntryId, owner, amount, kind)
  }

  /** Applies one balance change and appends the entry recording it. The
      balance moves by the entry's signed amount; nothing else changes. */
  function Post(l: Ledger, owner: AccountId, kind: TransactionType, amount: real): (r: Ledger)
    requires owner in l.users
    ensures r.users.Keys == l.users.Keys
    ensures r.users[owner].phoneNumber == l.users[owner].phoneNumber
    ensures r.users[owner].balance == l.users[owner].balance + SignedAmount(NextEntry(l, owner, kind, amount))
    ensures forall k :: k in l.users && k != owner ==> r.users[k] == l.users[k]
    ensures r.log == l.log + [NextEntry(l, owner, kind, amount)]
    ensures r.nextEntryId == l.nextEntryId + 1
  {
    var e := NextEntry(l, owner, kind, amount);
    var u := l.users[owner];
    Ledger(l.users[owner := u.(balance := u.balance + SignedAmount(e))], l.log + [e], l.nextEntryId + 1)
  }

  // ---------------------------------------------------------------------------
  // The ledger invariant

  lemma EmptyIsValid()
    ensures Valid(Empty())
  {
  }

  /** A created account has no entry whose `UserId` is its id, so its zero
      balance equals the signed sum of its entries: the base case of the
      ledger invariant. It needs only that every entry's owner exists. */
  lemma NewUserBalanceMatchesEntries(l: Ledger, id: AccountId, phone: PhoneNumber)
    requires forall i :: 0 <= i < |l.log| ==> l.log[i].userId in l.users
    requires id !in l.users
    ensures Transactions(AddUser(l, id, phone), id) == []
    ensures AddUser(l, id, phone).users[id].balance == Net(Transactions(AddUser(l, id, phone), id))
  {
    NoEntriesOf(l.log, id);
  }

  /** A new account starts at balance zero with no entries whose `UserId`
      is its id, and the invariant survives its creation. */
  lemma AddUserPreservesValid(l: Ledger, id: AccountId, phone: PhoneNumber)
    requires Valid(l)
    requires id !in l.users
    ensures Valid(AddUser(l, id, phone))
    ensures AddUser(l, id, phone).users[id].balance == 0.0
    ensures Transactions(AddUser(l, id, phone), id) == []
  {
    NewUserBalanceMatchesEntries(l, id, phone);
  }

  /** A posting of one positive entry keeps the invariant, provided a debit
      does not exceed the owner's balance. */
  lemma PostPreservesValid(l: Ledger, owner: AccountId, kind: TransactionType, amount: real)
    requires Valid(l)
    requires owner in l.users
    requires amount > 0.0
    requires !IsCredit(kind) ==> l.users[owner].balance >= amount
    ensures Valid(Post(l, owner, kind, amount))
  {
    PostKeepsEntriesWellFormed(l, owner, kind, amount);
    PostKeepsBalancesMatchEntries(l, owner, kind, amount);
  }

  lemma PostKeepsEntriesWellFormed(l: Ledger, owner: AccountId, kind: TransactionType, amount: real)
    requires EntriesWellFormed(l)
    requires owner in l.users
    requires amount > 0.0
    ensures EntriesWellFormed(Post(l, owner, kind, amount))
  {
    var r := Post(l, owner, kind, amount);
    assert forall i :: 0 <= i < |l.log| ==> r.log[i] == l.log[i];
    assert r.log[|l.log|] == NextEntry(l, owner, kind, amount);
  }

  lemma PostKeepsBalancesMatchEntries(l: Ledger, owner: AccountId, kind: TransactionType, amount: real)
    requires BalancesMatchEntries(l)
    requires owner in l.users
    ensures BalancesMatchEntries(Post(l, owner, kind, amount))
  {
    var r := Post(l, owner, kind, amount);
    forall id | id in r.users
      ensures r.users[id].balance == Net(EntriesOf(r.log, id))
    {
      PostBalanceOf(l, owner, kind, amount, id);
    }
  }

  /** One account's view of a posting: its balance and its entries move together. */
  lemma PostBalanceOf(l: Ledger, owner: AccountId, kind: TransactionType, amount: real, id: AccountId)
    requires owner in l.users
    requires id in l.users
    requires l.users[id].balance == Net(EntriesOf(l.log, id))
    ensures Post(l, owner, kind, amount).users[id].balance == Net(EntriesOf(Post(l, owner, kind, amount).log, id))
  {
    var e := NextEntry(l, owner, kind, amount);
    var r := Post(l, owner, kind, amount);
    assert r.log == l.log + [e];
    EntriesOfAppend(l.log, e, id);
    if id == owner {
      assert r.users[id].balance == l.users[id].balance + SignedAmount(e);
      NetAppend(EntriesOf(l.log, id), e);
      assert EntriesOf(r.log, id) == EntriesOf(l.log, id) + [e];
    } else {
      assert r.users[id] == l.users[id];
      assert EntriesOf(r.log, id) == EntriesOf(l.log, id) + [];
      assert EntriesOf(l.log, id) + [] == EntriesOf(l.log, id);
    }
  }

  // ---------------------------------------------------------------------------
  // Total of all balances

  /** The sum of the balances of the accounts in `keys`. */
  ghost function SumOver(m: map<AccountId, ApplicationUser>, keys: set<AccountId>): real
    requires keys <= m.Keys
    decreases keys
  {
    if keys == {} then 0.0
    else
      var k :| k in keys;
      m[k].balance + SumOver(m, keys - {k})
  }

  ghost function TotalBalance(m: map<AccountId, ApplicationUser>): real
  {
    SumOver(m, m.Keys)
  }

  /** Any account of `keys` may be taken out of the sum first. */
  lemma {:induction false} SumOverRemove(m: map<AccountId, ApplicationUser>, keys: set<AccountId>, k: AccountId)
    requires keys <= m.Keys
    requires k in keys
    ensures SumOver(m, keys) == m[k].balance + SumOver(m, keys - {k})
    decreases keys
  {
    var j :| j in keys && SumOver(m, keys) == m[j].balance + SumOver(m, keys - {j});
    if j != k {
      SumOverRemove(m, keys - {j}, k);
      SumOverRemove(m, keys - {k}, j);
      assert keys - {j} - {k} == keys - {k} - {j};
    }
  }

  /** The sum only depends on the balances of the summed accounts. */
  lemma {:induction false} SumOverFrame(m: map<AccountId, ApplicationUser>, m': map<AccountId, ApplicationUser>, keys: set<AccountId>)
    requires keys <= m.Keys && keys <= m'.Keys
    requires forall k :: k in keys ==> m[k].balance == m'[k].balance
    ensures SumOver(m, keys) == SumOver(m', keys)
    decreases keys
  {
    if keys != {} {
      var k :| k in keys;
      SumOverRemove(m, keys, k);
      SumOverRemove(m', keys, k);
      SumOverFrame(m, m', keys - {k});
    }
  }

  /** Changing one account's balance changes the total by the same amount. */
  lemma TotalBalanceUpdate(m: map<AccountId, ApplicationUser>, k: AccountId, u: ApplicationUser)
    requires k in m
    ensures TotalBalance(m[k := u]) == TotalBalance(m) - m[k].balance + u.balance
  {
    var m' := m[k := u];
    assert m'.Keys == m.Keys;
    SumOverRemove(m, m.Keys, k);
    SumOverRemove(m', m.Keys, k);
    SumOverFrame(m, m', m.Keys - {k});
  }

  /** A posting moves the total of all balances by its entry's signed amount. */
  lemma PostTotal(l: Ledger, owner: AccountId, kind: TransactionType, amount: real)
    requires owner in l.users
    ensures TotalBalance(Post(l, owner, kind, amount).users)
         == TotalBalance(l.users) + SignedAmount(NextEntry(l, owner, kind, amount))
  {
    var r := Post(l, owner, kind, amount);
    assert r.users == l.users[owner := r.users[owner]];
    TotalBalanceUpdate(l.users, owner, r.users[owner]);
  }
}

=== FILE: models.dfy ===
/** The two persisted entities of the wallet: the account (an identity user
    extended with a balance) and the wallet transaction entry, together with
    the per-account view of the entry log and its signed total. */
module Models {

  /** Identity user id (a string key assigned by the identity store). */
  type AccountId = string

  type PhoneNumber = string

  /** Entry identifiers. Each entry is stamped with a fresh identifier when it
      is constructed; the fresh-identifier source is modelled as a counter. */
  type EntryId = nat

  /** The kind of a wallet entry. Constructor spellings follow the source
      enumeration, including its spelling of "recieved". */
  datatype TransactionType = Deposit | Withdraw | Send | Recieved

  /** One ledger entry: one owner, one exact amount, one kind. There is no
      counterparty field; the two legs of a transfer are related only by
      being appended in the same commit. */
  datatype WalletTransaction = WalletTransaction(
    id: EntryId,
    userId: AccountId,
    amount: real,
    transactionType: TransactionType)

  /** An account. The id is the key under which the account is stored. */
  datatype ApplicationUser = ApplicationUser(phoneNumber: PhoneNumber, balance: real)

  /** The account as constructed: balance zero, whatever its phone number. */
  function NewUser(phone: PhoneNumber): ApplicationUser
  {
    ApplicationUser(phone, 0.0)
  }

  /** Kinds that add to the owner's balance. */
  predicate IsCredit(t: TransactionType)
  {
    t == Deposit || t == Recieved
  }

  /** The effect of one entry on its owner's balance: credits count positive,
      `send` and `withdraw` count negative. */
  function SignedAmount(e: WalletTransaction): real
  {
    if IsCredit(e.transactionType) then e.amount else -e.amount
  }

  /** The entries of `log` whose `UserId` is `id`, in the model's log order. */
  function EntriesOf(log: seq<WalletTransaction>, id: AccountId): (r: seq<WalletTransaction>)
    ensures |r| <= |log|
    ensures forall i :: 0 <= i < |r| ==> r[i].userId == id
    decreases |log|
  {
    if |log| == 0 then []
    else
      var last := log[|log| - 1];
      EntriesOf(log[..|log| - 1], id) + (if last.userId == id then [last] else [])
  }

  /** The signed sum of a list of entries. */
  function Net(entries: seq<WalletTransaction>): real
    decreases |entries|
  {
    if |entries| == 0 then 0.0
    else Net(entries[..|entries| - 1]) + SignedAmount(entries[|entries| - 1])
  }

  /** Appending an entry extends the owner's view by that entry and leaves
      every other account's view unchanged. */
  lemma {:induction false} EntriesOfAppend(log: seq<WalletTransaction>, e: WalletTransaction, id: AccountId)
    ensures EntriesOf(log + [e], id) == EntriesOf(log, id) + (if e.userId == id then [e] else [])
  {
    assert (log + [e])[..|log|] == log;
  }

  /** The signed sum of a list grows by the appended entry's signed amount. */
  lemma {:induction false} NetAppend(entries: seq<WalletTransaction>, e: WalletTransaction)
    ensures Net(entries + [e]) == Net(entries) + SignedAmount(e)
  {
    assert (entries + [e])[..|entries|] == entries;
  }

  /** The entries whose `UserId` is `id` are exactly the log entries it owns. */
  lemma {:induction false} EntriesOfExact(log: seq<WalletTransaction>, id: AccountId)
    ensures forall e :: e in EntriesOf(log, id) <==> e in log && e.userId == id
    decreases |log|
  {
    if |log| > 0 {
      var init, last := log[..|log| - 1], log[|log| - 1];
      EntriesOfExact(init, id);
      assert log == init + [last];
    }
  }

  /** An account that owns no entry of the log has no entries in its view. */
  lemma NoEntriesOf(log: seq<WalletTransaction>, id: AccountId)
    requires forall i :: 0 <= i < |log| ==> log[i].userId != id
    ensures EntriesOf(log, id) == []
  {
    EntriesOfExact(log, id);
  }
}

=== FILE: scenarios.dfy ===
/** Worked examples of the two endpoints on small concrete ledgers, and the
    all-or-nothing behaviour of a failed commit for both. The starting
    ledgers are built by the modelled operations themselves, so they satisfy
    the ledger invariant. */
module Scenarios {
  import opened Wrappers
  import opened Models
  import opened LedgerStore
  import opened WalletController

  /** Accounts A and B, created and then funded by two succeeded deposits. */
  function Funded(aCents: int, bCents: int): Ledger
  {
    var l0 := AddUser(AddUser(Empty(), "A", "555-0100"), "B", "555-0200");
    var l1 := WalletController.Deposit(l0, Some("A"), DepositDto(aCents, "usd", "pm_card"), Succeeded, true).ledger;
    WalletController.Deposit(l1, Some("B"), DepositDto(bCents, "usd", "pm_card"), Succeeded, true).ledger
  }

  /** Funded with positive deposits, the ledger is valid and each account
      holds its deposit. */
  lemma FundedIsValid(aCents: int, bCents: int)
    requires aCents > 0 && bCents > 0
    ensures Valid(Funded(aCents, bCents))
    ensures Funded(aCents, bCents).users.Keys == {"A", "B"}
    ensures Funded(aCents, bCents).users["A"] == ApplicationUser("555-0100", CentsToUnits(aCents))
    ensures Funded(aCents, bCents).users["B"] == ApplicationUser("555-0200", CentsToUnits(bCents))
  {
    var la := AddUser(Empty(), "A", "555-0100");
    var l0 := AddUser(la, "B", "555-0200");
    EmptyIsValid();
    AddUserPreservesValid(Empty(), "A", "555-0100");
    AddUserPreservesValid(la, "B", "555-0200");
    assert l0.users == map["A" := NewUser("555-0100"), "B" := NewUser("555-0200")];
    var r1 := WalletController.Deposit(l0, Some("A"), DepositDto(aCents, "usd", "pm_card"), Succeeded, true);
    assert r1.response.DepositSucceeded?;
    var l1 := r1.ledger;
    assert l1.users.Keys == {"A", "B"};
    assert l1.users["A"] == ApplicationUser("555-0100", CentsToUnits(aCents));
    assert l1.users["B"] == NewUser("555-0200");
    DepositPreservesValid(l0, Some("A"), DepositDto(aCents, "usd", "pm_card"), Succeeded, true);
    var r2 := WalletController.Deposit(l1, Some("B"), DepositDto(bCents, "usd", "pm_card"), Succeeded, true);
    assert r2.response.DepositSucceeded?;
    DepositPreservesValid(l1, Some("B"), DepositDto(bCents, "usd", "pm_card"), Succeeded, true);
  }

  /** A holds 100 and B 50; A sends 30 to B's phone number: A ends at 70, B
      at 80, with one `send` entry of 30 for A and one `recieved` of 30 for
      B, and the ledger stays valid. */
  lemma TransferScenario()
    ensures var l := Funded(10000, 5000);
            var r := SendMoney(l, Some("A"), SendMoneyDto("555-0200", 30.0), Some("B"), true);
            && r.response == MoneySent
            && r.ledger.users["A"].balance == 70.0
            && r.ledger.users["B"].balance == 80.0
            && r.ledger.log == l.log + [WalletTransaction(l.nextEntryId, "A", 30.0, Send),
                                        WalletTransaction(l.nextEntryId + 1, "B", 30.0, Recieved)]
            && Valid(r.ledger)
  {
    var l := Funded(10000, 5000);
    var dto := SendMoneyDto("555-0200", 30.0);
    FundedIsValid(10000, 5000);
    assert l.users["A"].balance == 100.0 && l.users["B"].balance == 50.0;
    assert PhoneLookup(l.users, "555-0200", Some("B"));
    var r := SendMoney(l, Some("A"), dto, Some("B"), true);
    assert r.response == MoneySent;
    assert TransferEffect(l, r.ledger, "A", "B", 30.0);
    SendMoneyPreservesValid(l, Some("A"), dto, Some("B"), true);
  }

  /** A holds 10 and tries to send 50: rejected, nothing written. */
  lemma InsufficientBalanceScenario()
    ensures var l := Funded(1000, 5000);
            SendMoney(l, Some("A"), SendMoneyDto("555-0200", 50.0), Some("B"), true) == Reply(InsufficientBalance, l)
  {
    FundedIsValid(1000, 5000);
    assert PhoneLookup(Funded(1000, 5000).users, "555-0200", Some("B"));
  }

  /** C, just created, deposits 500 minor units and the payment succeeds: C
      is credited 5 with one `Deposit` entry of 5, and the ledger is valid. */
  lemma DepositScenario()
    ensures var l := AddUser(Empty(), "C", "555-0300");
            var r := WalletController.Deposit(l, Some("C"), DepositDto(500, "usd", "pm_card"), Succeeded, true);
            && r.response == DepositSucceeded(5.0)
            && r.ledger.log == [WalletTransaction(0, "C", 5.0, TransactionType.Deposit)]
            && Valid(r.ledger)
  {
    EmptyIsValid();
    AddUserPreservesValid(Empty(), "C", "555-0300");
    DepositPreservesValid(AddUser(Empty(), "C", "555-0300"), Some("C"), DepositDto(500, "usd", "pm_card"), Succeeded, true);
  }

  /** A failed commit is rolled back: neither endpoint changes any balance or
      appends any entry. */
  lemma FailedCommitChangesNothing(l: Ledger, caller: Option<AccountId>, send: SendMoneyDto, recipient: Option<AccountId>,
                                   deposit: DepositDto, payment: PaymentOutcome)
    requires PhoneLookup(l.users, send.senderUserPhoneNumber, recipient)
    ensures SendMoney(l, caller, send, recipient, false).ledger == l
    ensures WalletController.Deposit(l, caller, deposit, payment, false).ledger == l
  {
  }
}

=== FILE: wallet.dfy ===
/** The wallet controller's two state-changing endpoints, SendMoney and
    Deposit, as pure transitions of the ledger store. Each returns the
    response kind together with the ledger as it stands afterwards. The
    database transaction is all-or-nothing: `commitOk` says whether the commit
    succeeded, and a failed commit leaves the input ledger untouched. */
module WalletController {
  import opened Wrappers
  import opened Models
  import opened LedgerStore

  /** Request body of SendMoney. Despite its name, the phone number field
      selects the RECIPIENT. */
  datatype SendMoneyDto = SendMoneyDto(senderUserPhoneNumber: PhoneNumber, amount: real)

  /** Request body of Deposit; the amount is in the currency's minor unit. */
  datatype DepositDto = DepositDto(amountInCents: int, currency: string, paymentMethodId: string)

  /** What the payment processor reports for the confirmed payment intent:
      one of the recognised statuses, some other status, or an exception. */
  datatype PaymentOutcome =
    | Succeeded
    | RequiresAction(clientSecret: string)
    | RequiresSourceAction(clientSecret: string)
    | OtherStatus
    | GatewayError(message: string)

  /** The kind of HTTP response each endpoint returns. */
  datatype Response =
    | MoneySent
    | DepositSucceeded(balance: real)
    | ActionRequired(clientSecret: string)
    | InvalidAmount
    | SenderNotFound
    | UserNotFound
    | RecipientNotFound
    | InsufficientBalance
    | PaymentRejected(message: string)
    | PaymentFailed
    | InternalServerError

  datatype Reply = Reply(response: Response, ledger: Ledger)

  // ---------------------------------------------------------------------------
  // Lookups

  /** Resolves the caller: `caller` is the user-id claim of the request, if
      any, and the user is found only when that id is a stored account. */
  function FindUser(l: Ledger, caller: Option<AccountId>): (r: Option<AccountId>)
    ensures r.Some? <==> caller.Some? && caller.value in l.users
    ensures r.Some? ==> r == caller
  {
    if caller.Some? && caller.value in l.users then caller else None
  }

  /** What a first-or-default query by phone number may answer: some account
      with that phone number, or nothing when no account has it. Phone numbers
      are not required to be unique, so more than one answer may be valid. */
  ghost predicate PhoneLookup(users: map<AccountId, ApplicationUser>, phone: PhoneNumber, found: Option<AccountId>)
  {
    match found
    case None => forall id :: id in users ==> users[id].phoneNumber != phone
    case Some(id) => id in users && users[id].phoneNumber == phone
  }

  /** `k` is the first position of `rows` whose account has the phone number. */
  ghost predicate IsFirstMatch(users: map<AccountId, ApplicationUser>, rows: seq<AccountId>, phone: PhoneNumber, k: int)
    requires forall i :: 0 <= i < |rows| ==> rows[i] in users
  {
    && 0 <= k < |rows|
    && users[rows[k]].phoneNumber == phone
    && forall j :: 0 <= j < k ==> users[rows[j]].phoneNumber != phone
  }

  /** The recipient query: scans the users table in the order the database
      returns its rows and yields the first account with the phone number. */
  method FirstOrDefaultByPhone(users: map<AccountId, ApplicationUser>, rows: seq<AccountId>, phone: PhoneNumber)
    returns (found: Option<AccountId>)
    requires forall i :: 0 <= i < |rows| ==> rows[i] in users
    requires forall id :: id in users ==> id in rows
    ensures PhoneLookup(users, phone, found)
    ensures found.Some? ==> exists k :: IsFirstMatch(users, rows, phone, k) && rows[k] == found.value
  {
    var i := 0;
    while i < |rows|
      invariant 0 <= i <= |rows|
      invariant forall j :: 0 <= j < i ==> users[rows[j]].phoneNumber != phone
    {
      if users[rows[i]].phoneNumber == phone {
        assert IsFirstMatch(users, rows, phone, i);
        return Some(rows[i]);
      }
      i := i + 1;
    }
    forall id | id in users
      ensures users[id].phoneNumber != phone
    {
      var j :| 0 <= j < |rows| && rows[j] == id;
    }
    return None;
  }

  // ---------------------------------------------------------------------------
  // SendMoney

  /** The two postings of a transfer's one commit: debit the sender with a
      `send` entry, then credit the recipient with a `recieved` entry. */
  function Transfer(l: Ledger, sender: AccountId, recipient: AccountId, amount: real): Ledger
    requires sender in l.users && recipient in l.users
  {
    Post(Post(l, sender, Send, amount), recipient, Recieved, amount)
  }

  /** What a committed transfer does: the sender loses `amount`, the recipient
      gains it (the two cancel when they are one account), no other account
      and no phone number changes, and exactly the `send` and `recieved`
      entries are appended, stamped with two fresh ids. */
  ghost predicate TransferEffect(l: Ledger, r: Ledger, sender: AccountId, recipient: AccountId, amount: real)
    requires sender in l.users && recipient in l.users
  {
    && r.users.Keys == l.users.Keys
    && (forall id :: id in l.users ==> r.users[id].phoneNumber == l.users[id].phoneNumber)
    && (sender != recipient ==>
          && r.users[sender].balance == l.users[sender].balance - amount
          && r.users[recipient].balance == l.users[recipient].balance + amount)
    && (sender == recipient ==> r.users[sender].balance == l.users[sender].balance)
    && (forall id :: id in l.users && id != sender && id != recipient ==> r.users[id] == l.users[id])
    && r.log == l.log + [WalletTransaction(l.nextEntryId, sender, amount, Send),
                         WalletTransaction(l.nextEntryId + 1, recipient, amount, Recieved)]
    && r.nextEntryId == l.nextEntryId + 2
  }

  /** The SendMoney endpoint. `recipient` is the answer of the phone-number
      query. Checks run in the order amount, caller, recipient, balance; the
      first failing check decides the response and nothing is written. */
  function SendMoney(l: Ledger, caller: Option<AccountId>, dto: SendMoneyDto, recipient: Option<AccountId>, commitOk: bool): (r: Reply)
    requires PhoneLookup(l.users, dto.senderUserPhoneNumber, recipient)
    ensures dto.amount <= 0.0 ==> r == Reply(InvalidAmount, l)
    ensures dto.amount > 0.0 && FindUser(l, caller).None? ==> r == Reply(SenderNotFound, l)
    ensures dto.amount > 0.0 && FindUser(l, caller).Some? && recipient.None? ==> r == Reply(RecipientNotFound, l)
    ensures (dto.amount > 0.0 && FindUser(l, caller).Some? && recipient.Some?
             && l.users[caller.value].balance < dto.amount) ==> r == Reply(InsufficientBalance, l)
    ensures (dto.amount > 0.0 && FindUser(l, caller).Some? && recipient.Some?
             && l.users[caller.value].balance >= dto.amount && !commitOk) ==> r == Reply(InternalServerError, l)
    ensures r.response != MoneySent ==> r.ledger == l
    ensures r.response == MoneySent <==>
              && dto.amount > 0.0 && FindUser(l, caller).Some? && recipient.Some?
              && l.users[caller.value].balance >= dto.amount && commitOk
    ensures r.response == MoneySent ==>
              && TransferEffect(l, r.ledger, caller.value, recipient.value, dto.amount)
              && r.ledger.users[caller.value].balance >= 0.0
  {
    if dto.amount <= 0.0 then Reply(InvalidAmount, l)
    else
      match FindUser(l, caller)
      case None => Reply(SenderNotFound, l)
      case Some(sender) =>
        match recipient
        case None => Reply(RecipientNotFound, l)
        case Some(to) =>
          if l.users[sender].balance < dto.amount then Reply(InsufficientBalance, l)
          else if !commitOk then Reply(InternalServerError, l)
          else Reply(MoneySent, Transfer(l, sender, to, dto.amount))
  }

  /** A committed transfer keeps the ledger invariant: no balance turns
      negative and every balance still equals the signed sum of its entries. */
  lemma SendMoneyPreservesValid(l: Ledger, caller: Option<AccountId>, dto: SendMoneyDto, recipient: Option<AccountId>, commitOk: bool)
    requires Valid(l)
    requires PhoneLookup(l.users, dto.senderUserPhoneNumber, recipient)
    ensures Valid(SendMoney(l, caller, dto, recipient, commitOk).ledger)
  {
    if SendMoney(l, caller, dto, recipient, commitOk).response == MoneySent {
      TransferPreservesValid(l, caller.value, recipient.value, dto.amount);
    }
  }

  /** The two postings of one covered commit keep the invariant. The debit is
      applied first in the model, so the proof can go posting by posting. */
  lemma TransferPreservesValid(l: Ledger, sender: AccountId, recipient: AccountId, amount: real)
    requires Valid(l)
    requires sender in l.users && recipient in l.users
    requires 0.0 < amount <= l.users[sender].balance
    ensures Valid(Transfer(l, sender, recipient, amount))
  {
    PostPreservesValid(l, sender, Send, amount);
    PostPreservesValid(Post(l, sender, Send, amount), recipient, Recieved, amount);
  }

  /** A transfer never changes the total of all balances, whatever its outcome. */
  lemma SendMoneyConservesTotal(l: Ledger, caller: Option<AccountId>, dto: SendMoneyDto, recipient: Option<AccountId>, commitOk: bool)
    requires PhoneLookup(l.users, dto.senderUserPhoneNumber, recipient)
    ensures TotalBalance(SendMoney(l, caller, dto, recipient, commitOk).ledger.users) == TotalBalance(l.users)
  {
    var r := SendMoney(l, caller, dto, recipient, commitOk);
    if r.response == MoneySent {
      var s, t, a := caller.value, recipient.value, dto.amount;
      PostTotal(l, s, Send, a);
      PostTotal(Post(l, s, Send, a), t, Recieved, a);
    }
  }

  /** When the phone lookup resolves to the caller, a covered send is
      accepted: the balance is unchanged yet both a `send` and a `recieved`
      entry for that account are appended. The order of the two entries among
      the account's entries is the model's log order; the source keeps no order. */
  lemma SendMoneyToSelf(l: Ledger, me: AccountId, dto: SendMoneyDto)
    requires me in l.users
    requires l.users[me].phoneNumber == dto.senderUserPhoneNumber
    requires 0.0 < dto.amount <= l.users[me].balance
    ensures SendMoney(l, Some(me), dto, Some(me), true).response == MoneySent
    ensures SendMoney(l, Some(me), dto, Some(me), true).ledger.users[me].balance == l.users[me].balance
    ensures Transactions(SendMoney(l, Some(me), dto, Some(me), true).ledger, me)
         == Transactions(l, me) + [WalletTransaction(l.nextEntryId, me, dto.amount, Send),
                                   WalletTransaction(l.nextEntryId + 1, me, dto.amount, Recieved)]
  {
    var r := SendMoney(l, Some(me), dto, Some(me), true);
    var e1 := WalletTransaction(l.nextEntryId, me, dto.amount, Send);
    var e2 := WalletTransaction(l.nextEntryId + 1, me, dto.amount, Recieved);
    EntriesOfAppend(l.log, e1, me);
    EntriesOfAppend(l.log + [e1], e2, me);
    assert r.ledger.log == (l.log + [e1]) + [e2];
  }

  /** No live operation records a `withdraw` entry: every entry SendMoney
      appends is a `send` or a `recieved`. */
  lemma SendMoneyNeverWithdraws(l: Ledger, caller: Option<AccountId>, dto: SendMoneyDto, recipient: Option<AccountId>, commitOk: bool)
    requires PhoneLookup(l.users, dto.senderUserPhoneNumber, recipient)
    ensures var r := SendMoney(l, caller, dto, recipient, commitOk).ledger;
            |l.log| <= |r.log| && r.log[..|l.log|] == l.log &&
            forall i :: |l.log| <= i < |r.log| ==> r.log[i].transactionType in {Send, Recieved} && r.log[i].amount == dto.amount
  {
  }

  // ---------------------------------------------------------------------------
  // Deposit

  /** Converts an amount in minor units to the ledger's unit. The division is
      exact: multiplying back gives the original count of minor units. */
  function CentsToUnits(cents: int): (r: real)
    ensures r * 100.0 == cents as real
    ensures cents > 0 <==> r > 0.0
  {
    cents as real / 100.0
  }

  /** The Deposit endpoint. `payment` is what the payment processor reported
      for the charge it was asked to confirm. Checks run in the order caller,
      amount, payment status; only a `succeeded` payment whose commit succeeds
      credits the account. The currency does not enter the ledger. */
  function Deposit(l: Ledger, caller: Option<AccountId>, dto: DepositDto, payment: PaymentOutcome, commitOk: bool): (r: Reply)
    ensures FindUser(l, caller).None? ==> r == Reply(UserNotFound, l)
    ensures FindUser(l, caller).Some? && dto.amountInCents <= 0 ==> r == Reply(InvalidAmount, l)
    ensures !r.response.DepositSucceeded? ==> r.ledger == l
    ensures r.response.DepositSucceeded? <==>
              FindUser(l, caller).Some? && dto.amountInCents > 0 && payment == Succeeded && commitOk
    ensures (FindUser(l, caller).Some? && dto.amountInCents > 0) ==>
              match payment
              case GatewayError(msg) => r.response == PaymentRejected(msg)
              case RequiresAction(secret) => r.response == ActionRequired(secret)
              case RequiresSourceAction(secret) => r.response == ActionRequired(secret)
              case OtherStatus => r.response == PaymentFailed
              case Succeeded => r.response.DepositSucceeded? || r.response == InternalServerError
    ensures r.response.DepositSucceeded? ==>
              var u := caller.value;
              var amount := CentsToUnits(dto.amountInCents);
              && r.ledger.users.Keys == l.users.Keys
              && r.ledger.users[u].balance == l.users[u].balance + amount
              && r.ledger.users[u].phoneNumber == l.users[u].phoneNumber
              && r.response.balance == r.ledger.users[u].balance
              && (forall id :: id in l.users && id != u ==> r.ledger.users[id] == l.users[id])
              && r.ledger.log == l.log + [WalletTransaction(l.nextEntryId, u, amount, TransactionType.Deposit)]
              && r.ledger.nextEntryId == l.nextEntryId + 1
  {
    match FindUser(l, caller)
    case None => Reply(UserNotFound, l)
    case Some(u) =>
      if dto.amountInCents <= 0 then Reply(InvalidAmount, l)
      else
        match payment
        case GatewayError(msg) => Reply(PaymentRejected(msg), l)
        case RequiresAction(secret) => Reply(ActionRequired(secret), l)
        case RequiresSourceAction(secret) => Reply(ActionRequired(secret), l)
        case Succeeded =>
          if !commitOk then Reply(InternalServerError, l)
          else
            var after := Post(l, u, TransactionType.Deposit, CentsToUnits(dto.amountInCents));
            Reply(DepositSucceeded(after.users[u].balance), after)
        case OtherStatus => Reply(PaymentFailed, l)
  }

  /** A deposit keeps the ledger invariant. */
  lemma DepositPreservesValid(l: Ledger, caller: Option<AccountId>, dto: DepositDto, payment: PaymentOutcome, commitOk: bool)
    requires Valid(l)
    ensures Valid(Deposit(l, caller, dto, payment, commitOk).ledger)
  {
    if Deposit(l, caller, dto, payment, commitOk).response.DepositSucceeded? {
      PostPreservesValid(l, caller.value, TransactionType.Deposit, CentsToUnits(dto.amountInCents));
    }
  }

  /** The total of all balances grows by exactly the credited amount on a
      successful deposit and is unchanged otherwise. */
  lemma DepositTotal(l: Ledger, caller: Option<AccountId>, dto: DepositDto, payment: PaymentOutcome, commitOk: bool)
    ensures var r := Deposit(l, caller, dto, payment, commitOk);
            TotalBalance(r.ledger.users)
              == TotalBalance(l.users) + (if r.response.DepositSucceeded? then CentsToUnits(dto.amountInCents) else 0.0)
  {
    if Deposit(l, caller, dto, payment, commitOk).response.DepositSucceeded? {
      PostTotal(l, caller.value, TransactionType.Deposit, CentsToUnits(dto.amountInCents));
    }
  }

  /** The account holds one balance for every currency: for the same amount,
      gateway outcome and commit result, the reply does not depend on the
      currency or payment-method fields. */
  lemma DepositIgnoresCurrency(l: Ledger, caller: Option<AccountId>, dto: DepositDto, dto': DepositDto, payment: PaymentOutcome, commitOk: bool)
    requires dto.amountInCents == dto'.amountInCents
    ensures Deposit(l, caller, dto, payment, commitOk) == Deposit(l, caller, dto', payment, commitOk)
  {
  }
}

=== FILE: wrappers.dfy ===
/** The optional-value datatype used where the source works with a nullable
    reference (a user that may not exist, a query that may find nothing). */
module Wrappers {

  datatype Option<+T> = None | Some(value: T)
}
